=== FILE: README.md ===
# Demo catalogue: app-state model

A Dafny model of the core of the demo-catalogue application: a web page that
lists Databricks apps, shows each one as OFF, LOADING or ON, lets the user
start a stopped app, and polls the backend every two seconds while some app is
starting. The model covers four pieces.

- **State derivation.** The frontend's `determineAppState` (both copies of the
  catalog component), the backend's `determine_app_state`, the serialisers
  `serialize_deployment_state` and `app_to_dict` that produce the JSON the
  frontend classifies again, and the compute-aware `state_management`,
  including its path on which no branch assigns `state`.
- **The catalog reconciler.** The record `{apps, appStates, error, loading}`
  of the AppCatalog component and its transitions: a list reply (ok or
  failed), a status reply (ok or ignored), a card's local state change, and a
  poll tick that selects the names to query. State keys are app names with
  every `-` turned into `_`. One model serves both copies (`frontend/` and
  the older `app/`), selected by `Config.copy`. The polling effect is modelled
  with concrete interval bookkeeping, and a session folds any sequence of
  events through catalog and timers.
- **The AppCard start handler and view.** The outcome of `handleStartApp`
  (request sent, optimistic LOADING, alert text, the `isStarting` trace), the
  error-message precedence of each copy, the status colour and the three
  mutually exclusive action regions.
- **The bearer credential.** The `Authorization` value the frontend builds and
  the backend's `_extract_bearer`, which reads the token back out of it.

Modules, one per file: `Wrappers` (Option, Result), `Types` (state, app JSON,
configuration), `Catalog`, `Scheduler`, `Card`, `Auth`, `BackendUtils`,
`ComputeState`.

Network replies, the session's id token and the configured backend URL are
inputs of the model. Each asynchronous handler is one atomic transition.

Three behaviours of the code that are easy to overlook:
- A failed list load empties `apps` but keeps `appStates`.
  `Catalog.LoadFailStrandsLoading` shows the consequence: a LOADING state
  survives, so the interval keeps running while every tick finds nothing to
  poll.
- States are keyed by the normalised name, not the name itself. Two names
  that differ only in `-` versus `_` share one state (`Catalog.DashAndUnderscoreCollide`).
- The polling effect depends on `appStates` and `apps` by reference. Every
  setter call stores a new object, so the effect reruns after every list
  reply, every ok status reply and every successful start, even when the
  stored values are unchanged; a status reply that still says LOADING
  replaces the running interval with a new one
  (`Scheduler.StillLoadingReplacesInterval`).

## Model

| member | source | states |
|---|---|---|
| Types.Wire | frontend/app/types/databricks.ts:1-5 | each state travels as one of the three strings off, loading, on, and each string belongs to exactly one state |
| Types.ParseWire | backend/enums.py:4-9 | exactly the three backend strings are read back as a state, each as the state that travels as that string |
| Types.WireRoundTrip | frontend/app/types/databricks.ts:1-5 | frontend and backend enums agree: every state survives the trip through its string |
| Catalog.Key | frontend/app/components/AppCatalog.tsx:61 | the key has the name's length and differs from it exactly where the name has `-`, which becomes `_` |
| Catalog.KeyNoDash | frontend/app/components/AppCatalog.tsx:89 | no key contains `-` |
| Catalog.KeyWithoutDash | frontend/app/components/AppCatalog.tsx:130 | a name without `-` is its own key |
| Catalog.KeyIdempotent | app/components/AppCatalog.tsx:49 | normalising a key again changes nothing |
| Catalog.KeyEqualIff | frontend/app/components/AppCatalog.tsx:109 | two names share a key if and only if they agree everywhere up to `-` versus `_` |
| Catalog.DashAndUnderscoreCollide | app/components/AppCatalog.tsx:72 | the distinct names `a-b` and `a_b` share the key `a_b` |
| Catalog.DetermineAppState | frontend/app/components/AppCatalog.tsx:28-39 | ON exactly for a reported SUCCEEDED, LOADING exactly for PENDING or RUNNING, OFF when any link of the optional chain is missing |
| Catalog.DetermineAppStateDefaultsOff | app/components/AppCatalog.tsx:20-33 | OFF exactly when the reported state is none of the three known strings, in particular without a deployment |
| Catalog.BuildStates | frontend/app/components/AppCatalog.tsx:59-64 | the map has one key per normalised name in the list, each holding the derived state of the last app with that key |
| Catalog.FetchApps | frontend/app/components/AppCatalog.tsx:41-73 | loading ends on every path; the error is cleared exactly when the URL is configured and the reply is ok; success keeps the returned list or the empty one; failure sets a non-empty message, empties the list and keeps the state map |
| Catalog.LoadOkStates | app/components/AppCatalog.tsx:42-53 | after a successful load the keys are exactly the normalised names and each holds the derived state of the last app with that key |
| Catalog.BuildStatesSize | frontend/app/components/AppCatalog.tsx:56-64 | when no two names share a key, the map has exactly one entry per app |
| Catalog.LoadFailMessages | frontend/app/components/AppCatalog.tsx:43-68 | the message names the cause: URL not set, fetch failed, or the thrown message (fetch failed when that is empty) |
| Catalog.ReplaceByName | frontend/app/components/AppCatalog.tsx:98 | the list keeps its length and order; exactly the entries with the requested name become the returned app, the rest are untouched, and a name not in the list changes nothing (the legacy copy, app/components/AppCatalog.tsx:85, is the same) |
| Catalog.CheckAppStatus | frontend/app/components/AppCatalog.tsx:75-102 | a missing URL or a failed reply changes nothing; an ok reply writes only the returned app's key (server state first, derived state otherwise), keeps every other key, and replaces exactly the list entries with the requested name |
| Catalog.CheckAppStatusIdempotent | app/components/AppCatalog.tsx:64-89 | folding the same status reply twice equals folding it once |
| Catalog.HandleStateChange | frontend/app/components/AppCatalog.tsx:129-132 | only the normalised key of the name changes, to the given state; list, error and loading flag are untouched |
| Catalog.HandleStateChangeIdempotent | app/components/AppCatalog.tsx:125-131 | applying the same state change twice equals applying it once |
| Catalog.DisplayedState | app/components/AppCatalog.tsx:195 | a card shows the stored state of its key, OFF when the key is absent |
| Catalog.LoadedAppShowsDerivedState | frontend/app/components/AppCatalog.tsx:180 | after a successful load, an app that is last with its key is shown with its own derived state |
| Catalog.LegacyIgnoresBackendUrl | app/components/AppCatalog.tsx:36-41 | the legacy copy's load and status handling do not depend on the configured backend URL |
| Catalog.HasLoadingApps | frontend/app/components/AppCatalog.tsx:26 | polling is due exactly when some stored key holds LOADING (the legacy copy, app/components/AppCatalog.tsx:17, is the same) |
| Catalog.FindByKey | frontend/app/components/AppCatalog.tsx:109 | the lookup finds the first app with the key, or reports that no app has it |
| Catalog.PollTick | frontend/app/components/AppCatalog.tsx:104-113 | a tick queries exactly the names that are first with a key holding LOADING; LOADING keys without an app are skipped |
| Catalog.PollTargetNeedsLoading | app/components/AppCatalog.tsx:92-104 | nothing is polled unless some state is LOADING |
| Catalog.PollTargetsIffLoading | frontend/app/components/AppCatalog.tsx:104-121 | when every key belongs to an app, a tick has a target if and only if some state is LOADING |
| Catalog.LoadOkCoversKeys | app/components/AppCatalog.tsx:43-52 | after a successful load every key belongs to some app in the list |
| Catalog.LoadFailStrandsLoading | frontend/app/components/AppCatalog.tsx:66-72 | a failed load keeps a LOADING state, so polling stays due, yet no name is a poll target |
| Scheduler.RunEffect | frontend/app/components/AppCatalog.tsx:104-121 | one run of the effect keeps the bookkeeping consistent and leaves one live interval when some state is LOADING and none otherwise; a new interval gets a fresh id |
| Scheduler.Step | frontend/app/components/AppCatalog.tsx:57-121 | a session step applies the event to the catalog as the handlers do; an event that calls no setter of `apps` or `appStates` leaves the intervals alone; one that does reruns the effect, leaving one fresh interval when some state is LOADING and none otherwise (the legacy effect, app/components/AppCatalog.tsx:92-116, has the same dependencies) |
| Scheduler.NoSetterNoChange | frontend/app/components/AppCatalog.tsx:85-98 | a status reply that is not fetched or not ok, and a start click that reports no change, leave the catalog as it was |
| Scheduler.StillLoadingReplacesInterval | frontend/app/components/AppCatalog.tsx:93-121 | an ok status reply that still says LOADING clears the running interval and starts a new one |
| Scheduler.StartClickOutcome | frontend/app/components/AppCard.tsx:42-47 | a start click changes the catalog only on a sent and successful start, and then exactly as marking that app LOADING |
| Scheduler.StartSuccessShowsLoading | frontend/app/components/AppCard.tsx:47 | after a successful start the card shows LOADING and polling is due, whatever the state before |
| Scheduler.StepKeepsTimerMatched | app/components/AppCatalog.tsx:92-116 | after any event, exactly one interval is live if some state is LOADING and none otherwise |
| Scheduler.RunKeepsTimerMatched | frontend/app/components/AppCatalog.tsx:121 | the same holds after any sequence of events from the mounted component |
| Scheduler.BothStartsPolled | frontend/app/components/AppCatalog.tsx:106-112 | two apps started between ticks are both polled on the next tick |
| Scheduler.QuietLoadStartsNoTimer | frontend/app/components/AppCatalog.tsx:117-120 | a first load without LOADING apps starts no interval |
| Scheduler.AlphaBetaScenario | frontend/app/components/AppCatalog.tsx:75-121 | load alpha OFF and beta ON, start alpha, poll SUCCEEDED: states and live intervals are as expected at each step |
| Card.RejectionMessage | app/components/AppCard.tsx:25-28 | the legacy copy throws `error`, else the fixed message, for a JSON body, and the parse error's own message for a body that is not JSON; the current copy (frontend/app/components/AppCard.tsx:42-44) throws `detail`, else `error`, else the fixed message, and the fixed message for a body that is not JSON; the message is non-empty except possibly for a legacy parse error |
| Card.AlertText | frontend/app/components/AppCard.tsx:50 | the alert is never empty: it is the error's message when that is non-empty, and the fixed retry prompt when it is empty |
| Card.HandleStartApp | frontend/app/components/AppCard.tsx:28-54 | `isStarting` goes true then false on every path; a request goes out exactly when the URL is usable; LOADING is requested once for this app exactly on a sent ok start; an alert is raised exactly when it is not: the missing-URL message when no request goes out, otherwise the rejection or thrown message through the empty-message fallback |
| Card.CurrentMessagePrecedence | frontend/app/components/AppCard.tsx:42-45 | the current copy alerts `detail`, else `error`, else the fixed message, which is also used for a body that is not JSON |
| Card.LegacyIgnoresDetail | app/components/AppCard.tsx:26-27 | the legacy copy's outcome does not depend on `detail`; it alerts `error`, else the fixed message |
| Card.StatusColor | frontend/app/components/AppCard.tsx:56-66 | green exactly for ON, yellow exactly for LOADING, gray exactly for OFF |
| Card.ActionRegions | frontend/app/components/AppCard.tsx:126-151 | Start iff OFF, the link iff ON with a URL, the notice iff LOADING; no two show together, and none shows exactly for ON without a URL |
| Auth.AuthHeader | frontend/app/components/AppCard.tsx:24-26 | a header is sent exactly for a non-empty token, and it is the prefix followed by the token |
| Auth.Strip | backend/dependencies.py:17 | the result has no whitespace at either end and is a slice of the input with only whitespace cut on both sides |
| Auth.ExtractBearer | backend/dependencies.py:14-17 | 401 exactly for a missing, empty or unprefixed header; otherwise the text after the single prefix, with whitespace cut from both ends |
| Auth.BearerRoundTrip | backend/dependencies.py:14-17 | the header built from a non-empty token without surrounding whitespace reads back as that token |
| Auth.MissingTokenRejected | frontend/app/components/AppCatalog.tsx:20-24 | without a token no header is sent and the backend answers 401 |
| Auth.PrefixIsCaseSensitive | backend/dependencies.py:15-16 | a lower-case prefix, the prefix without its space, and an empty header are all rejected |
| Auth.OnePrefixRemoved | backend/dependencies.py:17 | only one prefix is removed: `Bearer Bearer x` gives `Bearer x` |
| Auth.BlankTokenAccepted | backend/dependencies.py:17 | the prefix followed by whitespace alone is accepted and gives the empty token |
| BackendUtils.DetermineAppState | backend/utils.py:10-35 | on for a SUCCEEDED member, loading exactly for PENDING or RUNNING, off otherwise and without a deployment or status; always one of the three strings |
| BackendUtils.SerializeDeploymentState | backend/utils.py:38-58 | absent exactly without a deployment or status; an enum member's value, a plain string as is, None as the text None |
| BackendUtils.AppToDict | backend/utils.py:61-82 | name, description and URL are copied; the deployment is absent exactly when the app has none, and otherwise carries the serialised state |
| BackendUtils.ClassifiersAgree | backend/utils.py:10-82 | when every enum value spells its name, the frontend's state for the serialised app is the backend's state, through the shared strings in both directions |
| BackendUtils.PlainStringDisagrees | backend/utils.py:52-54 | without that assumption they differ: a plain SUCCEEDED string is off for the backend and ON for the frontend |
| ComputeState.StateManagement | backend/app_state.py:7-21 | no compute status, STOPPED or STOPPING give OFF; STARTING gives LOADING; otherwise no deployment gives OFF, IN_PROGRESS LOADING, SUCCEEDED ON; it fails exactly in the remaining cases |
| ComputeState.FailedDeploymentRaises | backend/app_state.py:8-21 | an active compute with a FAILED deployment reaches the return with `state` unassigned |
| ComputeState.StartingIgnoresDeployment | backend/app_state.py:11-15 | a STARTING compute is LOADING whatever the deployment, since the `or` never reads it |
| ComputeState.StateManagementTotal | backend/app_state.py:7-21 | the completed classifier agrees with every successful result and answers OFF where `state_management` raises |
| ComputeState.TotalOnlyAddsOff | backend/app_state.py:18-21 | the completed classifier claims ON or LOADING only where `state_management` returns the same |

## Left out

- React rendering, hooks and the session (`useSession`, sign-in, the page component): only the state updates are modelled, as pure transitions.
- Network I/O, JSON parsing, `alert` and `console`: each reply is an input value (ok with a body, non-ok with a body, or a thrown error); an alert is the text it would show.
- Real time: the 2000 ms period and replies that overlap in flight. A tick and each reply are atomic steps; interleavings are sequences of events.
- The FastAPI routes, application setup, configuration, schemas and `get_authenticated_client`: thin wrappers over the Databricks SDK, which is not part of this model.
- Display formatting: the title-cased display name, the user name derived from the e-mail address, the screenshot fallback.
- Catalog.CheckAppStatus: the server state is an `Option<AppState>`; the backend only sends the three strings, so an arbitrary string stored through the cast is not modelled.
- Catalog.FetchApps: a reply whose `apps` is not a list, or whose entries lack a `name`, is not modelled; such replies throw inside the handler and are covered by the thrown-error case.
- Catalog.PollTick: the result is the set of names queried; the order in which the entries are walked is not modelled, since each name is queried at most once per tick.
- Card.HandleStartApp: `detail` and `error` are strings or absent; other JSON values in those fields are not modelled.
- BackendUtils.DetermineAppState: assumes the SDK's `AppDeploymentState` enum has `PENDING` and `RUNNING` members; the SDK is not part of this model. Without them, building the list at backend/utils.py:26-29 would raise for every state other than SUCCEEDED, and the `except` at backend/utils.py:33-35 would answer "off". That matches the model for every value that exists, since none would be a PENDING or RUNNING member, but the "loading" answer would never occur. Beyond that, the `except` branches of the backend helpers are not modelled. An SDK enum member is identified by its name, and only a member equals another member.
- Scheduler.RunEffect: interval ids are naturals handed out in order; the runtime's actual timer handles are not modelled.
- Scheduler.Step: the setter calls of one handler are taken as one render, so the effect reruns once per event. If React renders between two of them, the effect reruns again on the same states; this changes interval ids, not how many intervals are live.

## Findings

| source | as written | input that shows it | evidently intended | confidence | as-written member | corrected member |
|---|---|---|---|---|---|---|
| backend/app_state.py:7-21 | when the compute is not stopped, stopping or starting and the deployment is neither IN_PROGRESS nor SUCCEEDED, no branch assigns `state`, and the return raises an unbound-local error that the `except AttributeError` does not catch | compute state ACTIVE with a deployment in state FAILED | answer OFF, as the `except` branch does for unreadable apps | not executed; high, the branches are exhaustive only for the three handled states | ComputeState.FailedDeploymentRaises | ComputeState.StateManagementTotal |

=== FILE: auth.dfy ===
/**
 * The bearer credential: the `Authorization` header the frontend builds from
 * the session's id token, and the backend's `_extract_bearer`, which reads the
 * token back out of it.
 */
module Auth {
  import opened Wrappers
  import opened Types

  const Prefix := "Bearer "

  /** The status of the HTTP error raised for a missing or malformed header. */
  const Unauthorized := 401

  /** `authHeaders()`: the `Authorization` value sent, if any. */
  function AuthHeader(idToken: Option<string>): (h: Option<string>)
    ensures h.Some? <==> Truthy(idToken)
    ensures h.Some? ==> |h.value| > |Prefix| && h.value[..|Prefix|] == Prefix
                        && h.value[|Prefix|..] == idToken.value
  {
    if Truthy(idToken) then Some(Prefix + idToken.value) else None
  }

  /** The characters outside U+2000..U+200A that Python's `str.isspace()` accepts. */
  const Whitespace: set<char> :=
    {'\t', '\n', '\U{0B}', '\U{0C}', '\r', '\U{1C}', '\U{1D}', '\U{1E}', '\U{1F}', ' ',
     '\U{85}', '\U{A0}', '\U{1680}', '\U{2028}', '\U{2029}', '\U{202F}', '\U{205F}', '\U{3000}'}

  /** The characters Python's `str.strip()` removes (those `str.isspace()` accepts). */
  predicate IsSpace(ch: char) {
    ch in Whitespace || ('\U{2000}' <= ch <= '\U{200A}')
  }

  /** Every character of `s[lo..hi]` is whitespace. */
  predicate SpaceBetween(s: string, lo: nat, hi: nat)
    requires lo <= hi <= |s|
  {
    forall m :: lo <= m < hi ==> IsSpace(s[m])
  }

  predicate AllSpace(s: string) {
    SpaceBetween(s, 0, |s|)
  }

  /** No whitespace at either end. */
  predicate Trimmed(s: string) {
    s == "" || (!IsSpace(s[0]) && !IsSpace(s[|s| - 1]))
  }

  /** The scan of `lstrip`: the first index at or after `i` that is not whitespace, or `|s|`. */
  function SkipLeading(s: string, i: nat): (k: nat)
    requires i <= |s|
    ensures i <= k <= |s| && SpaceBetween(s, i, k)
    ensures k == |s| || !IsSpace(s[k])
    decreases |s| - i
  {
    if i < |s| && IsSpace(s[i]) then SkipLeading(s, i + 1) else i
  }

  /** The scan of `rstrip`: the end of `s[lo..j]` once trailing whitespace is dropped. */
  function SkipTrailing(s: string, lo: nat, j: nat): (k: nat)
    requires lo <= j <= |s|
    ensures lo <= k <= j && SpaceBetween(s, k, j)
    ensures k == lo || !IsSpace(s[k - 1])
    decreases j
  {
    if j > lo && IsSpace(s[j - 1]) then SkipTrailing(s, lo, j - 1) else j
  }

  /** `s.strip()`: the slice between the leading and the trailing whitespace. */
  function Strip(s: string): (r: string)
    ensures Trimmed(r)
    ensures exists i, j :: 0 <= i <= j <= |s| && r == s[i..j] && SpaceBetween(s, 0, i) && SpaceBetween(s, j, |s|)
  {
    var i := SkipLeading(s, 0);
    var j := SkipTrailing(s, i, |s|);
    s[i..j]
  }

  /** Stripping text that has no surrounding whitespace gives it back unchanged. */
  lemma StripTrimmed(s: string)
    requires Trimmed(s)
    ensures Strip(s) == s
  {
  }

  /** Whitespace alone strips to nothing. */
  lemma StripAllSpace(s: string)
    requires AllSpace(s)
    ensures Strip(s) == ""
  {
  }

  predicate StartsWith(s: string, prefix: string) {
    |prefix| <= |s| && s[..|prefix|] == prefix
  }

  /** `_extract_bearer`: the token carried by an `Authorization` header, or 401. */
  function ExtractBearer(authorization: Option<string>): (r: Result<string, int>)
    ensures r.Err? <==> !Truthy(authorization) || !StartsWith(authorization.value, Prefix)
    ensures r.Err? ==> r.error == Unauthorized
    ensures r.Ok? ==> Trimmed(r.value)
    ensures r.Ok? ==>
      var rest := authorization.value[|Prefix|..];
      (exists i, j :: 0 <= i <= j <= |rest| && r.value == rest[i..j]
                      && SpaceBetween(rest, 0, i) && SpaceBetween(rest, j, |rest|))
  {
    if !Truthy(authorization) || !StartsWith(authorization.value, Prefix) then Err(Unauthorized)
    else Ok(Strip(authorization.value[|Prefix|..]))
  }

  /** The header the frontend builds reads back as the token, whenever the token has no surrounding whitespace. */
  lemma BearerRoundTrip(token: string)
    requires token != "" && Trimmed(token)
    ensures ExtractBearer(AuthHeader(Some(token))) == Ok(token)
  {
    var h := Prefix + token;
    assert h[..|Prefix|] == Prefix;
    assert h[|Prefix|..] == token;
    StripTrimmed(token);
  }

  /** Without a token no header is sent, and the backend answers 401. */
  lemma MissingTokenRejected(idToken: Option<string>)
    requires !Truthy(idToken)
    ensures ExtractBearer(AuthHeader(idToken)) == Err(Unauthorized)
  {
  }

  /** The prefix check is exact: case and the single space matter. */
  lemma PrefixIsCaseSensitive()
    ensures ExtractBearer(Some("bearer abc")) == Err(Unauthorized)
    ensures ExtractBearer(Some("Bearer")) == Err(Unauthorized)
    ensures ExtractBearer(Some("")) == Err(Unauthorized)
    ensures ExtractBearer(None) == Err(Unauthorized)
  {
    assert "bearer abc"[..|Prefix|] != Prefix by {
      assert "bearer abc"[0] != Prefix[0];
    }
  }

  /** Only one prefix is removed. */
  lemma OnePrefixRemoved()
    ensures ExtractBearer(Some("Bearer Bearer x")) == Ok("Bearer x")
  {
    var h := "Bearer Bearer x";
    assert h[..|Prefix|] == Prefix;
    assert h[|Prefix|..] == "Bearer x";
    StripTrimmed("Bearer x");
  }

  /** The prefix followed by whitespace only is accepted and yields the empty token. */
  lemma BlankTokenAccepted(blank: string)
    requires AllSpace(blank)
    ensures ExtractBearer(Some(Prefix + blank)) == Ok("")
  {
    StripAllSpace(blank);
    assert (Prefix + blank)[|Prefix|..] == blank;
  }
}

=== FILE: backend_utils.dfy ===
/**
 * The backend's view of an app (an SDK object, which is not part of this
 * model beyond the attributes read here) and the helpers of `utils.py`:
 * the state classifier and the serialiser that produces the JSON the
 * frontend classifies again.
 */
module BackendUtils {
  import opened Wrappers
  import opened Types
  import Catalog

  /**
   * What `active_deployment.status.state` holds: a member of the SDK's
   * deployment-state enum (its member name and its `.value`), a plain
   * string, or `None`.
   */
  datatype DeploymentStateValue = EnumMember(name: string, value: string) | PlainString(s: string) | NoneState

  datatype SdkDeploymentStatus = SdkDeploymentStatus(state: DeploymentStateValue)

  datatype SdkDeployment = SdkDeployment(status: Option<SdkDeploymentStatus>)

  /** `compute_status`: `state` is the name of a member of the SDK's compute-state enum, or `None`. */
  datatype ComputeStatus = ComputeStatus(state: Option<string>)

  /** The SDK app object; an absent attribute value is `None`. */
  datatype SdkApp = SdkApp(
    name: string,
    description: Option<string>,
    url: Option<string>,
    activeDeployment: Option<SdkDeployment>,
    computeStatus: Option<ComputeStatus>)

  /** Comparison with a member of the deployment-state enum: only that member itself is equal to it. */
  predicate IsMember(v: DeploymentStateValue, member: string) {
    v.EnumMember? && v.name == member
  }

  /** `app.active_deployment.status.state` when both links are present (the guard of `utils.py`). */
  function DeploymentState(app: SdkApp): Option<DeploymentStateValue> {
    match app.activeDeployment
    case None => None
    case Some(d) =>
      match d.status
      case None => None
      case Some(st) => Some(st.state)
  }

  /** `determine_app_state`: the wire string of the app's state. */
  function DetermineAppState(app: SdkApp): (w: string)
    ensures w in {"off", "loading", "on"}
    ensures w == "on" <==> DeploymentState(app).Some? && IsMember(DeploymentState(app).value, "SUCCEEDED")
    ensures w == "loading" <==>
      (DeploymentState(app).Some? &&
       (IsMember(DeploymentState(app).value, "PENDING") || IsMember(DeploymentState(app).value, "RUNNING")))
    ensures DeploymentState(app).None? ==> w == "off"
  {
    match DeploymentState(app)
    case None => "off"
    case Some(v) =>
      if IsMember(v, "SUCCEEDED") then "on"
      else if IsMember(v, "PENDING") || IsMember(v, "RUNNING") then "loading"
      else "off"
  }

  /** `serialize_deployment_state`: `.value` for an enum member, `str(state)` otherwise, `None` without a status. */
  function SerializeDeploymentState(app: SdkApp): (r: Option<string>)
    ensures r.None? <==> DeploymentState(app).None?
    ensures r.Some? && DeploymentState(app).value.EnumMember? ==> r.value == DeploymentState(app).value.value
    ensures r.Some? && DeploymentState(app).value.PlainString? ==> r.value == DeploymentState(app).value.s
    ensures r.Some? && DeploymentState(app).value.NoneState? ==> r.value == "None"
  {
    match DeploymentState(app)
    case None => None
    case Some(EnumMember(_, value)) => Some(value)
    case Some(PlainString(s)) => Some(s)
    case Some(NoneState) => Some("None")
  }

  /** `app_to_dict`: the JSON object the frontend receives for the app. */
  function AppToDict(app: SdkApp): (j: App)
    ensures j.name == app.name && j.description == app.description && j.url == app.url
    ensures j.activeDeployment.None? <==> app.activeDeployment.None?
    ensures j.activeDeployment.Some? ==>
      j.activeDeployment.value.status == Some(DeploymentStatus(SerializeDeploymentState(app)))
  {
    var deployment :=
      if app.activeDeployment.Some? then Some(Deployment(Some(DeploymentStatus(SerializeDeploymentState(app)))))
      else None;
    App(app.name, app.description, app.url, deployment)
  }

  /** The deployment state, if any, is an enum member whose `.value` spells its name, or `None`. */
  ghost predicate ValuesSpellNames(app: SdkApp) {
    DeploymentState(app).Some? ==>
      match DeploymentState(app).value
      case EnumMember(name, value) => value == name
      case PlainString(_) => false
      case NoneState => true
  }

  /**
   * When enum values spell their names, the frontend's classification of
   * the serialised app agrees with the backend's classification of the
   * SDK object, through the shared wire strings.
   */
  lemma ClassifiersAgree(app: SdkApp)
    requires ValuesSpellNames(app)
    ensures Wire(Catalog.DetermineAppState(AppToDict(app))) == DetermineAppState(app)
    ensures ParseWire(DetermineAppState(app)) == Some(Catalog.DetermineAppState(AppToDict(app)))
  {
  }

  /** Without that assumption they can disagree: a plain string is serialised but not recognised. */
  lemma PlainStringDisagrees()
    ensures var app := SdkApp("x", None, None,
                              Some(SdkDeployment(Some(SdkDeploymentStatus(PlainString("SUCCEEDED"))))), None);
      DetermineAppState(app) == "off" && Catalog.DetermineAppState(AppToDict(app)) == ON
  {
  }
}

=== FILE: card.dfy ===
/**
 * The AppCard component, in both copies: the outcome of the start button's
 * handler, the status colour, and which action region a card shows.
 */
module Card {
  import opened Wrappers
  import opened Types

  /** The body of a non-2xx start reply: a JSON object with optional `detail` and `error`, or text that is not JSON. */
  datatype ErrorBody = ErrorJson(detail: Option<string>, error: Option<string>) | NotJson(parseError: string)

  /** Reply to `POST /databricks/apps/{name}/start`: a 2xx, a non-2xx with a body, or a thrown error. */
  datatype StartResponse = StartOk | StartNotOk(body: ErrorBody) | StartThrew(message: string)

  /**
   * What one run of `handleStartApp` does: whether a request went out, the
   * `onStateChange` calls it made in order, the alert it raised, and the
   * values `isStarting` took (set on entry, reset in `finally`).
   */
  datatype StartOutcome = StartOutcome(
    requestSent: bool,
    stateChanges: seq<(string, AppState)>,
    alert: Option<string>,
    startingTrace: seq<bool>)

  const StartFailed := "Failed to start app"
  const RetryPrompt := "Failed to start app. Please try again."

  /** The message of the error thrown for a non-2xx reply. */
  function RejectionMessage(copy: Copy, body: ErrorBody): (m: string)
    ensures body.ErrorJson? || copy == Current ==> m != ""
    ensures copy == Current && body.ErrorJson? && Truthy(body.detail) ==> m == body.detail.value
    ensures copy == Current && body.ErrorJson? && !Truthy(body.detail) && Truthy(body.error) ==> m == body.error.value
    ensures copy == Current && body.ErrorJson? && !Truthy(body.detail) && !Truthy(body.error) ==> m == StartFailed
    ensures copy == Current && body.NotJson? ==> m == StartFailed
    ensures copy == Legacy && body.ErrorJson? ==> m == (if Truthy(body.error) then body.error.value else StartFailed)
    ensures copy == Legacy && body.NotJson? ==> m == body.parseError
  {
    match (copy, body)
    case (Current, ErrorJson(detail, error)) =>
      if Truthy(detail) then detail.value
      else if Truthy(error) then error.value
      else StartFailed
    // the current copy catches the parse failure and substitutes `{detail: 'Failed to start app'}`
    case (Current, NotJson(_)) => StartFailed
    case (Legacy, ErrorJson(_, error)) =>
      if Truthy(error) then error.value else StartFailed
    // the legacy copy does not catch it: the parse error itself is what is thrown
    case (Legacy, NotJson(parseError)) => parseError
  }

  /** The alert text: the error's message, or a retry prompt when the message is empty. */
  function AlertText(message: string): (t: string)
    ensures t != ""
    ensures message != "" ==> t == message
    ensures message == "" ==> t == RetryPrompt
  {
    if message != "" then message else RetryPrompt
  }

  /** `handleStartApp` for `app`; `resp` is the reply, unused when no request is sent. */
  function HandleStartApp(cfg: Config, app: App, resp: StartResponse): (r: StartOutcome)
    ensures r.startingTrace == [true, false]
    ensures r.requestSent <==> !BackendUrlMissing(cfg)
    ensures r.stateChanges == [] || r.stateChanges == [(app.name, LOADING)]
    ensures r.stateChanges == [(app.name, LOADING)] <==> r.requestSent && resp.StartOk?
    ensures r.alert.None? <==> r.stateChanges != []
    ensures r.alert.Some? ==> r.alert.value != ""
    ensures !r.requestSent ==> r.alert == Some(UrlNotSet)
    ensures r.requestSent && resp.StartNotOk? ==> r.alert == Some(AlertText(RejectionMessage(cfg.copy, resp.body)))
    ensures r.requestSent && resp.StartThrew? ==> r.alert == Some(AlertText(resp.message))
  {
    if BackendUrlMissing(cfg) then
      StartOutcome(false, [], Some(AlertText(UrlNotSet)), [true, false])
    else
      match resp
      case StartOk => StartOutcome(true, [(app.name, LOADING)], None, [true, false])
      case StartNotOk(body) =>
        StartOutcome(true, [], Some(AlertText(RejectionMessage(cfg.copy, body))), [true, false])
      case StartThrew(message) =>
        StartOutcome(true, [], Some(AlertText(message)), [true, false])
  }

  /** The current copy reports `detail` first, then `error`, then a fixed message, also for a body that is not JSON. */
  lemma CurrentMessagePrecedence(url: Option<string>, app: App, body: ErrorBody)
    requires Truthy(url)
    ensures var alert := HandleStartApp(Config(Current, url), app, StartNotOk(body)).alert;
      && (body.ErrorJson? && Truthy(body.detail) ==> alert == Some(body.detail.value))
      && (body.ErrorJson? && !Truthy(body.detail) && Truthy(body.error) ==> alert == Some(body.error.value))
      && (body.ErrorJson? && !Truthy(body.detail) && !Truthy(body.error) ==> alert == Some(StartFailed))
      && (body.NotJson? ==> alert == Some(StartFailed))
  {
  }

  /** The legacy copy never looks at `detail`. */
  lemma LegacyIgnoresDetail(url: Option<string>, app: App, d1: Option<string>, d2: Option<string>, error: Option<string>)
    ensures HandleStartApp(Config(Legacy, url), app, StartNotOk(ErrorJson(d1, error)))
         == HandleStartApp(Config(Legacy, url), app, StartNotOk(ErrorJson(d2, error)))
    ensures HandleStartApp(Config(Legacy, url), app, StartNotOk(ErrorJson(d1, error))).alert
         == Some(if Truthy(error) then error.value else StartFailed)
  {
  }

  /** `getStatusColor`. */
  function StatusColor(s: AppState): (colour: string)
    ensures colour == "bg-green-500" <==> s == ON
    ensures colour == "bg-yellow-500" <==> s == LOADING
    ensures colour == "bg-gray-500" <==> s == OFF
  {
    match s
    case ON => "bg-green-500"
    case LOADING => "bg-yellow-500"
    case OFF => "bg-gray-500"
  }

  /** The three action regions of a card: the Start button, the "Go to App" link, the loading notice. */
  datatype Regions = Regions(start: bool, link: bool, notice: bool)

  /** Which regions render for a card in state `s`. */
  function ActionRegions(s: AppState, app: App): (r: Regions)
    ensures r.start <==> s == OFF
    ensures r.link <==> s == ON && Truthy(app.url)
    ensures r.notice <==> s == LOADING
    ensures !(r.start && r.link) && !(r.start && r.notice) && !(r.link && r.notice)
    ensures !r.start && !r.link && !r.notice <==> s == ON && !Truthy(app.url)
  {
    Regions(s == OFF, s == ON && Truthy(app.url), s == LOADING)
  }
}

=== FILE: catalog.dfy ===
/**
 * The client-side catalog reconciler of the AppCatalog component, in both
 * copies (`frontend/` and the older `app/`, told apart by `Config.copy`).
 * Each asynchronous handler is one atomic transition of the `Catalog` record;
 * each network reply is an input value.
 */
module Catalog {
  import opened Wrappers
  import opened Types

  // ---------------------------------------------------------------------------
  // Keys and derivation
  // ---------------------------------------------------------------------------

  /** The key an app's state is stored under: the name with every `-` turned into `_`. */
  function Key(name: string): (k: string)
    ensures |k| == |name|
    ensures forall i :: 0 <= i < |name| ==> k[i] == (if name[i] == '-' then '_' else name[i])
  {
    if |name| == 0 then ""
    else [if name[0] == '-' then '_' else name[0]] + Key(name[1..])
  }

  /** Two names share a key exactly when they agree everywhere up to `-` versus `_`. */
  predicate SameUpToDash(a: string, b: string) {
    |a| == |b| &&
    forall i :: 0 <= i < |a| ==>
      a[i] == b[i] || (a[i] in {'-', '_'} && b[i] in {'-', '_'})
  }

  lemma KeyNoDash(name: string)
    ensures '-' !in Key(name)
  {
  }

  /** A name without `-` is its own key. */
  lemma KeyWithoutDash(name: string)
    requires '-' !in name
    ensures Key(name) == name
  {
  }

  lemma KeyIdempotent(name: string)
    ensures Key(Key(name)) == Key(name)
  {
  }

  lemma KeyEqualIff(a: string, b: string)
    ensures Key(a) == Key(b) <==> SameUpToDash(a, b)
  {
  }

  /** Distinct app names can collide on one key. */
  lemma DashAndUnderscoreCollide()
    ensures "a-b" != "a_b" && Key("a-b") == Key("a_b") == "a_b"
  {
  }

  /** `app.active_deployment?.status?.state`: absent as soon as any link is missing. */
  function ReportedState(app: App): Option<string> {
    match app.activeDeployment
    case None => None
    case Some(d) =>
      match d.status
      case None => None
      case Some(st) => st.state
  }

  /** `determineAppState`, identical in both copies. */
  function DetermineAppState(app: App): (s: AppState)
    ensures s == ON <==> ReportedState(app) == Some("SUCCEEDED")
    ensures s == LOADING <==> ReportedState(app) in {Some("PENDING"), Some("RUNNING")}
    ensures ReportedState(app).None? ==> s == OFF
  {
    var reported := ReportedState(app);
    if reported == Some("SUCCEEDED") then ON
    else if reported == Some("PENDING") || reported == Some("RUNNING") then LOADING
    else OFF
  }

  /** Any state string other than the three known ones, or a missing one, shows as OFF. */
  lemma DetermineAppStateDefaultsOff(app: App)
    ensures DetermineAppState(app) == OFF <==>
      ReportedState(app) !in {Some("SUCCEEDED"), Some("PENDING"), Some("RUNNING")}
    ensures app.activeDeployment.None? ==> DetermineAppState(app) == OFF
  {
  }

  // ---------------------------------------------------------------------------
  // The catalog record and its replies
  // ---------------------------------------------------------------------------

  /** The component state: `apps`, `appStates`, `error` and `loading`. */
  datatype Catalog = Catalog(
    apps: seq<App>,
    states: map<string, AppState>,
    error: Option<string>,
    loading: bool)

  /** Before the first fetch: nothing known, the loading screen is up. */
  const Initial := Catalog([], map[], None, true)

  /** Reply to `GET /databricks/apps`: a 2xx with a body whose `apps` may be missing, a non-2xx, or a thrown error. */
  datatype ListResponse = ListOk(apps: Option<seq<App>>) | ListNotOk | ListThrew(message: string)

  /** Reply to `GET /databricks/apps/{name}/status`: the app plus the server's state, a non-2xx, or a thrown error. */
  datatype StatusResponse = StatusOk(app: App, state: Option<AppState>) | StatusNotOk | StatusThrew

  const FetchFailed := "Failed to fetch apps"

  // ---------------------------------------------------------------------------
  // fetchApps
  // ---------------------------------------------------------------------------

  /** App `i` is the last one in list order with its key, so its state is the one `forEach` leaves behind. */
  ghost predicate LastWithKey(apps: seq<App>, i: int)
    requires 0 <= i < |apps|
  {
    forall j :: i < j < |apps| ==> Key(apps[j].name) != Key(apps[i].name)
  }

  /** The state map built by `fetchApps`, writing each app's derived state in list order. */
  function BuildStates(apps: seq<App>): (m: map<string, AppState>)
    ensures forall k :: k in m <==> exists i :: 0 <= i < |apps| && Key(apps[i].name) == k
    ensures forall i :: 0 <= i < |apps| && LastWithKey(apps, i) ==>
      Key(apps[i].name) in m && m[Key(apps[i].name)] == DetermineAppState(apps[i])
  {
    if |apps| == 0 then map[]
    else
      var init := apps[..|apps| - 1];
      var last := apps[|apps| - 1];
      var m0 := BuildStates(init);
      BuildStatesStep(apps, m0);
      m0[Key(last.name) := DetermineAppState(last)]
  }

  /** The step of `BuildStates`: writing the last app's state onto the map built from the others. */
  lemma BuildStatesStep(apps: seq<App>, m0: map<string, AppState>)
    requires |apps| > 0
    requires var init := apps[..|apps| - 1];
      && (forall k :: k in m0 <==> exists i :: 0 <= i < |init| && Key(init[i].name) == k)
      && (forall i :: 0 <= i < |init| && LastWithKey(init, i) ==>
            Key(init[i].name) in m0 && m0[Key(init[i].name)] == DetermineAppState(init[i]))
    ensures var m := m0[Key(apps[|apps| - 1].name) := DetermineAppState(apps[|apps| - 1])];
      && (forall k :: k in m <==> exists i :: 0 <= i < |apps| && Key(apps[i].name) == k)
      && (forall i :: 0 <= i < |apps| && LastWithKey(apps, i) ==>
            Key(apps[i].name) in m && m[Key(apps[i].name)] == DetermineAppState(apps[i]))
  {
    var n := |apps| - 1;
    StepKeys(apps, m0, DetermineAppState(apps[n]));
    StepValues(apps, m0);
  }

  /** Writing the last app's key adds it to the keys of the others, giving the keys of all. */
  lemma StepKeys(apps: seq<App>, m0: map<string, AppState>, v: AppState)
    requires |apps| > 0
    requires var init := apps[..|apps| - 1];
      forall k :: k in m0 <==> exists i :: 0 <= i < |init| && Key(init[i].name) == k
    ensures var m := m0[Key(apps[|apps| - 1].name) := v];
      forall k :: k in m <==> exists i :: 0 <= i < |apps| && Key(apps[i].name) == k
  {
    var init := apps[..|apps| - 1];
    var m := m0[Key(apps[|apps| - 1].name) := v];
    forall k | k in m
      ensures exists i :: 0 <= i < |apps| && Key(apps[i].name) == k
    {
      if k in m0 {
        var i :| 0 <= i < |init| && Key(init[i].name) == k;
        assert init[i] == apps[i];
      }
    }
    forall k | exists i :: 0 <= i < |apps| && Key(apps[i].name) == k
      ensures k in m
    {
      var i :| 0 <= i < |apps| && Key(apps[i].name) == k;
      if i < |init| {
        assert init[i] == apps[i];
      }
    }
  }

  /** Writing the last app's state keeps the state of every other key's last app. */
  lemma StepValues(apps: seq<App>, m0: map<string, AppState>)
    requires |apps| > 0
    requires var init := apps[..|apps| - 1];
      forall i :: 0 <= i < |init| && LastWithKey(init, i) ==>
        Key(init[i].name) in m0 && m0[Key(init[i].name)] == DetermineAppState(init[i])
    ensures var m := m0[Key(apps[|apps| - 1].name) := DetermineAppState(apps[|apps| - 1])];
      forall i :: 0 <= i < |apps| && LastWithKey(apps, i) ==>
        Key(apps[i].name) in m && m[Key(apps[i].name)] == DetermineAppState(apps[i])
  {
    var n := |apps| - 1;
    var init := apps[..n];
    var m := m0[Key(apps[n].name) := DetermineAppState(apps[n])];
    forall i | 0 <= i < |apps| && LastWithKey(apps, i)
      ensures Key(apps[i].name) in m && m[Key(apps[i].name)] == DetermineAppState(apps[i])
    {
      if i < n {
        StepLastWithKey(apps, i);
        assert init[i] == apps[i];
        assert Key(apps[i].name) != Key(apps[n].name);
      }
    }
  }

  /** The last app with its key among all apps is the last one with that key among the others. */
  lemma StepLastWithKey(apps: seq<App>, i: int)
    requires 0 <= i < |apps| - 1 && LastWithKey(apps, i)
    ensures LastWithKey(apps[..|apps| - 1], i)
  {
  }

  /** The failure branch of `fetchApps`: the list is emptied, the state map is kept. */
  function LoadFailed(c: Catalog, message: string): Catalog {
    c.(apps := [], error := Some(message), loading := false)
  }

  /** `fetchApps` with the reply `resp` (not consulted when the backend URL is missing: no request is sent). */
  function FetchApps(cfg: Config, c: Catalog, resp: ListResponse): (c': Catalog)
    ensures !c'.loading
    ensures c'.error.None? <==> !BackendUrlMissing(cfg) && resp.ListOk?
    ensures c'.error.None? ==> c'.apps == resp.apps.GetOr([])
    ensures c'.error.Some? ==> c'.error.value != "" && c'.apps == [] && c'.states == c.states
  {
    if BackendUrlMissing(cfg) then LoadFailed(c, UrlNotSet)
    else
      match resp
      case ListOk(apps) =>
        var list := apps.GetOr([]);
        Catalog(list, BuildStates(list), None, false)
      case ListNotOk => LoadFailed(c, FetchFailed)
      case ListThrew(message) => LoadFailed(c, if message != "" then message else FetchFailed)
  }

  /** A successful load replaces the state map wholesale: one key per normalised name, each holding the state derived from the last app with that key. */
  lemma LoadOkStates(cfg: Config, c: Catalog, apps: Option<seq<App>>)
    requires !BackendUrlMissing(cfg)
    ensures var c' := FetchApps(cfg, c, ListOk(apps));
      && c'.apps == apps.GetOr([])
      && c'.error.None?
      && (forall k :: k in c'.states <==> exists i :: 0 <= i < |c'.apps| && Key(c'.apps[i].name) == k)
      && (forall i :: 0 <= i < |c'.apps| && LastWithKey(c'.apps, i) ==>
            c'.states[Key(c'.apps[i].name)] == DetermineAppState(c'.apps[i]))
  {
  }

  /** When no two names collide, the map has exactly one entry per app. */
  lemma {:induction false} BuildStatesSize(apps: seq<App>)
    requires forall i, j :: 0 <= i < j < |apps| ==> Key(apps[i].name) != Key(apps[j].name)
    ensures |BuildStates(apps)| == |apps|
  {
    if |apps| > 0 {
      var init := apps[..|apps| - 1];
      assert forall i :: 0 <= i < |init| ==> init[i] == apps[i];
      BuildStatesSize(init);
      LastKeyIsNew(apps);
    }
  }

  /** With distinct keys, the last app's key is not among the keys of the others. */
  lemma LastKeyIsNew(apps: seq<App>)
    requires |apps| > 0
    requires forall i, j :: 0 <= i < j < |apps| ==> Key(apps[i].name) != Key(apps[j].name)
    ensures Key(apps[|apps| - 1].name) !in BuildStates(apps[..|apps| - 1])
  {
  }

  /** The error message a failed load shows, by cause. */
  lemma LoadFailMessages(cfg: Config, c: Catalog, resp: ListResponse)
    ensures BackendUrlMissing(cfg) ==> FetchApps(cfg, c, resp).error == Some(UrlNotSet)
    ensures !BackendUrlMissing(cfg) && resp.ListNotOk? ==> FetchApps(cfg, c, resp).error == Some(FetchFailed)
    ensures !BackendUrlMissing(cfg) && resp.ListThrew? ==>
      FetchApps(cfg, c, resp).error == Some(if resp.message == "" then FetchFailed else resp.message)
  {
  }

  // ---------------------------------------------------------------------------
  // checkAppStatus
  // ---------------------------------------------------------------------------

  /** The list with every app named `name` replaced by `app`, order and length kept. */
  function ReplaceByName(apps: seq<App>, name: string, app: App): (r: seq<App>)
    ensures |r| == |apps|
    ensures forall i :: 0 <= i < |apps| && apps[i].name == name ==> r[i] == app
    ensures forall i :: 0 <= i < |apps| && apps[i].name != name ==> r[i] == apps[i]
    ensures (forall i :: 0 <= i < |apps| ==> apps[i].name != name) ==> r == apps
  {
    seq(|apps|, i requires 0 <= i < |apps| => if apps[i].name == name then app else apps[i])
  }

  /** `checkAppStatus(requested)` with the reply `resp`. */
  function CheckAppStatus(cfg: Config, c: Catalog, requested: string, resp: StatusResponse): (c': Catalog)
    ensures c'.error == c.error && c'.loading == c.loading
    ensures BackendUrlMissing(cfg) || !resp.StatusOk? ==> c' == c
    ensures !BackendUrlMissing(cfg) && resp.StatusOk? ==>
      var k := Key(resp.app.name);
      && c'.states.Keys == c.states.Keys + {k}
      && c'.states[k] == (if resp.state.Some? then resp.state.value else DetermineAppState(resp.app))
      && (forall k' :: k' in c.states && k' != k ==> c'.states[k'] == c.states[k'])
      && |c'.apps| == |c.apps|
      && (forall i :: 0 <= i < |c.apps| ==>
            c'.apps[i] == (if c.apps[i].name == requested then resp.app else c.apps[i]))
  {
    if BackendUrlMissing(cfg) then c
    else
      match resp
      case StatusOk(app, override) =>
        var next := if override.Some? then override.value else DetermineAppState(app);
        c.(states := c.states[Key(app.name) := next],
           apps := ReplaceByName(c.apps, requested, app))
      case StatusNotOk => c
      case StatusThrew => c
  }

  /** Folding the same status reply twice is the same as folding it once. */
  lemma CheckAppStatusIdempotent(cfg: Config, c: Catalog, requested: string, resp: StatusResponse)
    ensures var once := CheckAppStatus(cfg, c, requested, resp);
      CheckAppStatus(cfg, once, requested, resp) == once
  {
  }

  // ---------------------------------------------------------------------------
  // handleStateChange and the displayed state
  // ---------------------------------------------------------------------------

  /** `handleStateChange(name, s)`: the local state change a card requests. */
  function HandleStateChange(c: Catalog, name: string, s: AppState): (c': Catalog)
    ensures c'.apps == c.apps && c'.error == c.error && c'.loading == c.loading
    ensures c'.states.Keys == c.states.Keys + {Key(name)}
    ensures c'.states[Key(name)] == s
    ensures forall k :: k in c.states && k != Key(name) ==> c'.states[k] == c.states[k]
  {
    c.(states := c.states[Key(name) := s])
  }

  lemma HandleStateChangeIdempotent(c: Catalog, name: string, s: AppState)
    ensures HandleStateChange(HandleStateChange(c, name, s), name, s) == HandleStateChange(c, name, s)
  {
  }

  /** The state a card is rendered with: the stored state under the app's key, OFF when there is none. */
  function DisplayedState(c: Catalog, app: App): (s: AppState)
    ensures Key(app.name) in c.states ==> s == c.states[Key(app.name)]
    ensures Key(app.name) !in c.states ==> s == OFF
  {
    if Key(app.name) in c.states then c.states[Key(app.name)] else OFF
  }

  /** After a successful load an app that is the last in the list with its key shows exactly its derived state. */
  lemma LoadedAppShowsDerivedState(cfg: Config, c: Catalog, apps: seq<App>, i: int)
    requires !BackendUrlMissing(cfg)
    requires 0 <= i < |apps| && LastWithKey(apps, i)
    ensures DisplayedState(FetchApps(cfg, c, ListOk(Some(apps))), apps[i]) == DetermineAppState(apps[i])
  {
  }

  /** The copies differ in the URL check only: the legacy copy ignores the configured URL. */
  lemma LegacyIgnoresBackendUrl(url1: Option<string>, url2: Option<string>, c: Catalog,
                                list: ListResponse, requested: string, status: StatusResponse)
    ensures FetchApps(Config(Legacy, url1), c, list) == FetchApps(Config(Legacy, url2), c, list)
    ensures CheckAppStatus(Config(Legacy, url1), c, requested, status)
         == CheckAppStatus(Config(Legacy, url2), c, requested, status)
  {
  }

  // ---------------------------------------------------------------------------
  // Polling
  // ---------------------------------------------------------------------------

  /** `hasLoadingApps`: some stored state is LOADING. */
  function HasLoadingApps(c: Catalog): (b: bool)
    ensures b <==> exists k :: k in c.states && c.states[k] == LOADING
  {
    LOADING in c.states.Values
  }

  /** App `i` is the first in list order with its key: the one `apps.find` picks. */
  ghost predicate FirstWithKey(apps: seq<App>, i: int)
    requires 0 <= i < |apps|
  {
    forall j :: 0 <= j < i ==> Key(apps[j].name) != Key(apps[i].name)
  }

  /** The index of the first app whose key is `k`, as the tick's lookup finds it. */
  function FindByKey(apps: seq<App>, k: string): (r: Option<nat>)
    ensures r.Some? ==> r.value < |apps| && Key(apps[r.value].name) == k && FirstWithKey(apps, r.value)
    ensures r.None? ==> forall j :: 0 <= j < |apps| ==> Key(apps[j].name) != k
  {
    if |apps| == 0 then None
    else if Key(apps[0].name) == k then Some(0)
    else
      match FindByKey(apps[1..], k)
      case None => None
      case Some(i) => Some(i + 1)
  }

  /** `n` is polled on a tick: its key is LOADING and it is the first app with that key. */
  ghost predicate IsPollTarget(c: Catalog, n: string) {
    && Key(n) in c.states && c.states[Key(n)] == LOADING
    && exists i :: 0 <= i < |c.apps| && c.apps[i].name == n && FirstWithKey(c.apps, i)
  }

  /** Two apps that are both first with the same key are the same app. */
  lemma FirstWithKeyUnique(apps: seq<App>, i: int, j: int)
    requires 0 <= i < |apps| && 0 <= j < |apps|
    requires FirstWithKey(apps, i) && FirstWithKey(apps, j)
    requires Key(apps[i].name) == Key(apps[j].name)
    ensures i == j
  {
  }

  /** One poll tick: walks the state entries and collects, for each LOADING key, the name of the first app with that key. */
  method PollTick(c: Catalog) returns (names: set<string>)
    ensures forall n :: n in names <==> IsPollTarget(c, n)
  {
    names := {};
    var pending := c.states.Keys;
    while pending != {}
      invariant pending <= c.states.Keys
      invariant forall n :: n in names <==> IsPollTarget(c, n) && Key(n) !in pending
      decreases pending
    {
      var k :| k in pending;
      if c.states[k] == LOADING {
        match FindByKey(c.apps, k) {
          case Some(i) =>
            forall n | IsPollTarget(c, n) && Key(n) == k
              ensures n == c.apps[i].name
            {
              var j :| 0 <= j < |c.apps| && c.apps[j].name == n && FirstWithKey(c.apps, j);
              FirstWithKeyUnique(c.apps, i, j);
            }
            names := names + {c.apps[i].name};
          case None =>
            forall n | IsPollTarget(c, n)
              ensures Key(n) != k
            {
              var j :| 0 <= j < |c.apps| && c.apps[j].name == n && FirstWithKey(c.apps, j);
            }
        }
      }
      pending := pending - {k};
    }
  }

  /** Nothing is polled unless some state is LOADING. */
  lemma PollTargetNeedsLoading(c: Catalog, n: string)
    requires IsPollTarget(c, n)
    ensures HasLoadingApps(c)
  {
  }

  /** Every stored key belongs to some app in the list. */
  ghost predicate KeysCovered(c: Catalog) {
    forall k :: k in c.states ==> exists i :: 0 <= i < |c.apps| && Key(c.apps[i].name) == k
  }

  /** With every key backed by an app, a tick has something to poll exactly when some state is LOADING. */
  lemma PollTargetsIffLoading(c: Catalog)
    requires KeysCovered(c)
    ensures HasLoadingApps(c) <==> exists n :: IsPollTarget(c, n)
  {
    if HasLoadingApps(c) {
      var k :| k in c.states && c.states[k] == LOADING;
      var i := FindByKey(c.apps, k).value;
      assert IsPollTarget(c, c.apps[i].name);
    }
    if exists n :: IsPollTarget(c, n) {
      var n :| IsPollTarget(c, n);
      PollTargetNeedsLoading(c, n);
    }
  }

  /** A successful load leaves every key backed by an app. */
  lemma LoadOkCoversKeys(cfg: Config, c: Catalog, resp: ListResponse)
    requires !BackendUrlMissing(cfg) && resp.ListOk?
    ensures KeysCovered(FetchApps(cfg, c, resp))
  {
  }

  /**
   * A load failure empties the list but keeps a LOADING state, so the
   * timer stays armed while every tick polls nothing.
   */
  lemma LoadFailStrandsLoading(cfg: Config, c: Catalog, resp: ListResponse, n: string)
    requires BackendUrlMissing(cfg) || !resp.ListOk?
    requires HasLoadingApps(c)
    ensures HasLoadingApps(FetchApps(cfg, c, resp))
    ensures !IsPollTarget(FetchApps(cfg, c, resp), n)
  {
  }
}

=== FILE: compute_state.dfy ===
/**
 * `state_management`: the classifier that also looks at the app's compute
 * status. Its branches can all fail to match, leaving the local `state`
 * unassigned so that the `return` raises; that path is an explicit error here.
 */
module ComputeState {
  import opened Wrappers
  import opened Types
  import opened BackendUtils

  /** The `UnboundLocalError` raised when no branch assigned `state`. */
  datatype Fault = StateUnbound

  /** The compute state is the named member of the compute-state enum. */
  predicate ComputeIs(app: SdkApp, member: string)
    requires app.computeStatus.Some?
  {
    app.computeStatus.value.state == Some(member)
  }

  /** Neither stopped, stopping nor starting: the deployment decides. */
  predicate ComputeUndecided(app: SdkApp)
    requires app.computeStatus.Some?
  {
    !ComputeIs(app, "STOPPED") && !ComputeIs(app, "STOPPING") && !ComputeIs(app, "STARTING")
  }

  /**
   * `state_management` as written. Reading `.state` through a `None`
   * compute status, deployment or deployment status raises the
   * `AttributeError` that is caught as OFF; the right operand of the `or`
   * is read only when the compute is not STARTING.
   */
  function StateManagement(app: SdkApp): (r: Result<AppState, Fault>)
    ensures app.computeStatus.None? ==> r == Ok(OFF)
    ensures app.computeStatus.Some? && (ComputeIs(app, "STOPPED") || ComputeIs(app, "STOPPING")) ==> r == Ok(OFF)
    ensures app.computeStatus.Some? && ComputeIs(app, "STARTING") ==> r == Ok(LOADING)
    ensures app.computeStatus.Some? && ComputeUndecided(app) ==>
      match DeploymentState(app)
      case None => r == Ok(OFF)
      case Some(v) =>
        && (IsMember(v, "IN_PROGRESS") ==> r == Ok(LOADING))
        && (IsMember(v, "SUCCEEDED") ==> r == Ok(ON))
    ensures r.Err? <==>
      && app.computeStatus.Some? && ComputeUndecided(app)
      && DeploymentState(app).Some?
      && !IsMember(DeploymentState(app).value, "IN_PROGRESS")
      && !IsMember(DeploymentState(app).value, "SUCCEEDED")
  {
    match app.computeStatus
    case None => Ok(OFF)
    case Some(compute) =>
      if compute.state == Some("STOPPED") || compute.state == Some("STOPPING") then Ok(OFF)
      else if compute.state == Some("STARTING") then Ok(LOADING)
      else
        match DeploymentState(app)
        case None => Ok(OFF)
        case Some(v) =>
          if IsMember(v, "IN_PROGRESS") then Ok(LOADING)
          else if IsMember(v, "SUCCEEDED") then Ok(ON)
          else Err(StateUnbound)
  }

  /** A running compute with a failed deployment reaches the `return` with `state` unassigned. */
  lemma FailedDeploymentRaises()
    ensures StateManagement(SdkApp("x", None, None,
      Some(SdkDeployment(Some(SdkDeploymentStatus(EnumMember("FAILED", "FAILED"))))),
      Some(ComputeStatus(Some("ACTIVE"))))) == Err(StateUnbound)
  {
  }

  /** A STARTING compute is LOADING even without any deployment: the `or` never reads it. */
  lemma StartingIgnoresDeployment(app: SdkApp, d: Option<SdkDeployment>)
    requires app.computeStatus == Some(ComputeStatus(Some("STARTING")))
    ensures StateManagement(app) == StateManagement(app.(activeDeployment := d)) == Ok(LOADING)
  {
  }

  /**
   * The classifier with the fall-through completed: where no branch
   * matches, it answers OFF, as its `except` branch already does for
   * unreadable apps.
   */
  function StateManagementTotal(app: SdkApp): (s: AppState)
    ensures StateManagement(app).Ok? ==> s == StateManagement(app).value
    ensures StateManagement(app).Err? ==> s == OFF
  {
    match app.computeStatus
    case None => OFF
    case Some(compute) =>
      if compute.state == Some("STOPPED") || compute.state == Some("STOPPING") then OFF
      else if compute.state == Some("STARTING") then LOADING
      else
        match DeploymentState(app)
        case None => OFF
        case Some(v) =>
          if IsMember(v, "IN_PROGRESS") then LOADING
          else if IsMember(v, "SUCCEEDED") then ON
          else OFF
  }

  /** The completed classifier never claims ON or LOADING on a path where `StateManagement` raises. */
  lemma TotalOnlyAddsOff(app: SdkApp)
    ensures StateManagementTotal(app) != OFF ==> StateManagement(app) == Ok(StateManagementTotal(app))
  {
  }
}

=== FILE: scheduler.dfy ===
/**
 * The polling effect of AppCatalog and the session it runs in. After every
 * call to the setter of `appStates` or `apps` the effect runs again: the previous run's
 * cleanup clears its interval, then either a new 2-second interval is
 * created (some state is LOADING) or the stored one is cleared. A session
 * folds the component's events (replies and start clicks) into the catalog
 * and reruns the effect after each one that calls a setter.
 */
module Scheduler {
  import opened Wrappers
  import opened Types
  import opened Catalog
  import Card

  /**
   * Interval bookkeeping: the ids of live intervals, the id held in
   * `pollingInterval`, the id the last effect run's cleanup will clear, and
   * the next id the runtime hands out.
   */
  datatype Timers = Timers(live: set<nat>, handle: Option<nat>, cleanup: Option<nat>, next: nat)

  const NoTimers := Timers({}, None, None, 0)

  /** The bookkeeping is consistent: at most the interval the cleanup knows about is alive. */
  ghost predicate Valid(t: Timers) {
    && t.handle == t.cleanup
    && t.live == (if t.cleanup.Some? then {t.cleanup.value} else {})
    && forall id :: id in t.live ==> id < t.next
  }

  /** One run of the polling effect, given whether some state is LOADING. */
  function RunEffect(t: Timers, hasLoading: bool): (t': Timers)
    ensures Valid(t) ==> Valid(t') && |t'.live| == (if hasLoading then 1 else 0)
    ensures Valid(t) && hasLoading ==> t'.handle.Some? && t'.handle.value !in t.live
  {
    var afterCleanup := if t.cleanup.Some? then t.live - {t.cleanup.value} else t.live;
    if hasLoading then
      Timers(afterCleanup + {t.next}, Some(t.next), Some(t.next), t.next + 1)
    else
      Timers(if t.handle.Some? then afterCleanup - {t.handle.value} else afterCleanup, None, None, t.next)
  }

  /** The component: its catalog state and its intervals. */
  datatype Session = Session(catalog: Catalog, timers: Timers)

  const Mounted := Session(Initial, NoTimers)

  /** What can happen to the component: a list reply, a status reply, or a start click with its reply. */
  datatype Event =
    | Load(list: ListResponse)
    | StatusReply(requested: string, status: StatusResponse)
    | StartClicked(app: App, start: Card.StartResponse)

  /** The `onStateChange` calls of a card, applied in order through `handleStateChange`. */
  function ApplyStateChanges(c: Catalog, changes: seq<(string, AppState)>): Catalog
    decreases |changes|
  {
    if changes == [] then c
    else ApplyStateChanges(HandleStateChange(c, changes[0].0, changes[0].1), changes[1..])
  }

  /** The catalog after one event. */
  function Apply(cfg: Config, c: Catalog, e: Event): Catalog {
    match e
    case Load(list) => FetchApps(cfg, c, list)
    case StatusReply(requested, status) => CheckAppStatus(cfg, c, requested, status)
    case StartClicked(app, start) => ApplyStateChanges(c, Card.HandleStartApp(cfg, app, start).stateChanges)
  }

  /** A start click changes the catalog only when the start succeeded, and then only by marking that app LOADING. */
  lemma StartClickOutcome(cfg: Config, c: Catalog, app: App, start: Card.StartResponse)
    ensures !BackendUrlMissing(cfg) && start.StartOk? ==>
      Apply(cfg, c, StartClicked(app, start)) == HandleStateChange(c, app.name, LOADING)
    ensures BackendUrlMissing(cfg) || !start.StartOk? ==> Apply(cfg, c, StartClicked(app, start)) == c
  {
    var changes := Card.HandleStartApp(cfg, app, start).stateChanges;
    if changes != [] {
      assert changes == [(app.name, LOADING)];
      assert changes[1..] == [];
      assert ApplyStateChanges(c, changes)
          == ApplyStateChanges(HandleStateChange(c, app.name, LOADING), []);
    }
  }

  /** After a successful start the card shows LOADING and polling is due, whatever the state before. */
  lemma StartSuccessShowsLoading(cfg: Config, c: Catalog, app: App)
    requires !BackendUrlMissing(cfg)
    ensures DisplayedState(Apply(cfg, c, StartClicked(app, Card.StartOk)), app) == LOADING
    ensures HasLoadingApps(Apply(cfg, c, StartClicked(app, Card.StartOk)))
  {
    StartClickOutcome(cfg, c, app, Card.StartOk);
    var c' := HandleStateChange(c, app.name, LOADING);
    assert c'.states[Key(app.name)] in c'.states.Values;
  }

  /**
   * Whether folding `e` calls the setter of `appStates` or `apps`: a list reply
   * always does (the failure path stores an empty list), a status reply only
   * when it was fetched and answered ok, a start click only when it reports a
   * state change.
   */
  predicate CallsSetter(cfg: Config, e: Event) {
    match e
    case Load(_) => true
    case StatusReply(_, status) => !BackendUrlMissing(cfg) && status.StatusOk?
    case StartClicked(app, start) => Card.HandleStartApp(cfg, app, start).stateChanges != []
  }

  /** An event that calls no setter leaves the catalog as it was. */
  lemma NoSetterNoChange(cfg: Config, c: Catalog, e: Event)
    ensures !CallsSetter(cfg, e) ==> Apply(cfg, c, e) == c
  {
  }

  /**
   * The effect's dependencies are compared by reference, and every setter call
   * stores a fresh object, so the effect reruns after each event that calls a
   * setter, even when the stored value is equal to the old one.
   */
  function Step(cfg: Config, s: Session, e: Event): (s': Session)
    ensures s'.catalog == Apply(cfg, s.catalog, e)
    ensures !CallsSetter(cfg, e) ==> s'.timers == s.timers
    ensures Valid(s.timers) ==> Valid(s'.timers)
    ensures Valid(s.timers) && CallsSetter(cfg, e) ==>
      && |s'.timers.live| == (if HasLoadingApps(s'.catalog) then 1 else 0)
      && (HasLoadingApps(s'.catalog) ==> s'.timers.handle.Some? && s'.timers.handle.value !in s.timers.live)
  {
    var c' := Apply(cfg, s.catalog, e);
    if CallsSetter(cfg, e) then
      Session(c', RunEffect(s.timers, HasLoadingApps(c')))
    else
      Session(c', s.timers)
  }

  /** Exactly one interval is alive when some state is LOADING, none otherwise. */
  ghost predicate TimerMatchesLoading(s: Session) {
    Valid(s.timers) && |s.timers.live| == (if HasLoadingApps(s.catalog) then 1 else 0)
  }

  lemma MountedMatches()
    ensures TimerMatchesLoading(Mounted)
  {
  }

  lemma StepKeepsTimerMatched(cfg: Config, s: Session, e: Event)
    requires TimerMatchesLoading(s)
    ensures TimerMatchesLoading(Step(cfg, s, e))
  {
  }

  /**
   * A status reply that still says LOADING replaces the running interval with
   * a new one: the old one is cleared by the effect's cleanup.
   */
  lemma StillLoadingReplacesInterval(cfg: Config, s: Session, app: App)
    requires !BackendUrlMissing(cfg) && TimerMatchesLoading(s)
    ensures var s' := Step(cfg, s, StatusReply(app.name, StatusOk(app, Some(LOADING))));
      |s'.timers.live| == 1 && s'.timers.live !! s.timers.live
  {
  }

  /** The session after a sequence of events. */
  function Run(cfg: Config, s: Session, events: seq<Event>): Session
    decreases |events|
  {
    if events == [] then s else Run(cfg, Step(cfg, s, events[0]), events[1..])
  }

  /** Whatever happens, there is exactly one polling interval if and only if some state is LOADING. */
  lemma {:induction false} RunKeepsTimerMatched(cfg: Config, s: Session, events: seq<Event>)
    requires TimerMatchesLoading(s)
    ensures TimerMatchesLoading(Run(cfg, s, events))
    decreases |events|
  {
    if events != [] {
      StepKeepsTimerMatched(cfg, s, events[0]);
      RunKeepsTimerMatched(cfg, Step(cfg, s, events[0]), events[1..]);
    }
  }

  /** Two apps started between ticks are both polled on the next tick. */
  lemma BothStartsPolled(cfg: Config, c: Catalog, i: int, j: int)
    requires !BackendUrlMissing(cfg)
    requires 0 <= i < |c.apps| && 0 <= j < |c.apps|
    requires FirstWithKey(c.apps, i) && FirstWithKey(c.apps, j)
    ensures var c' := Apply(cfg, Apply(cfg, c, StartClicked(c.apps[i], Card.StartOk)),
                            StartClicked(c.apps[j], Card.StartOk));
      IsPollTarget(c', c.apps[i].name) && IsPollTarget(c', c.apps[j].name)
  {
    var c1 := Apply(cfg, c, StartClicked(c.apps[i], Card.StartOk));
    StartClickOutcome(cfg, c, c.apps[i], Card.StartOk);
    StartClickOutcome(cfg, c1, c.apps[j], Card.StartOk);
    var c2 := Apply(cfg, c1, StartClicked(c.apps[j], Card.StartOk));
    assert c2.apps == c.apps;
    if Key(c.apps[i].name) != Key(c.apps[j].name) {
      assert c2.states[Key(c.apps[i].name)] == LOADING;
    }
  }

  // ---------------------------------------------------------------------------
  // A worked run: alpha is started and comes up while beta stays on
  // ---------------------------------------------------------------------------

  function WithState(name: string, state: Option<string>): App {
    App(name, None, None, Some(Deployment(Some(DeploymentStatus(state)))))
  }

  /** Neither name of the worked run contains a dash. */
  lemma ScenarioKeys()
    ensures Key("alpha") == "alpha" && Key("beta") == "beta"
  {
  }

  /** The states recorded for alpha (OFF) and beta (ON). */
  lemma ScenarioStates(alpha: App, beta: App)
    requires Key(alpha.name) == "alpha" && DetermineAppState(alpha) == OFF
    requires Key(beta.name) == "beta" && DetermineAppState(beta) == ON
    ensures BuildStates([alpha, beta]) == map["alpha" := OFF, "beta" := ON]
  {
  }

  /** The states a load of alpha (OFF) and beta (ON) records. */
  lemma ScenarioLoadStates(cfg: Config, alpha: App, beta: App)
    requires !BackendUrlMissing(cfg)
    requires alpha.name == "alpha" && DetermineAppState(alpha) == OFF
    requires beta.name == "beta" && DetermineAppState(beta) == ON
    ensures FetchApps(cfg, Initial, ListOk(Some([alpha, beta]))).states == map["alpha" := OFF, "beta" := ON]
  {
    ScenarioKeys();
    ScenarioStates(alpha, beta);
    assert FetchApps(cfg, Initial, ListOk(Some([alpha, beta]))).states == BuildStates([alpha, beta]);
  }

  /** No LOADING among the states of the worked run's two apps. */
  lemma ScenarioQuiet(c: Catalog, a: AppState, b: AppState)
    requires c.states == map["alpha" := a, "beta" := b]
    requires a != LOADING && b != LOADING
    ensures !HasLoadingApps(c)
  {
  }

  /** A first load in which no app is LOADING starts no interval. */
  lemma QuietLoadStartsNoTimer(cfg: Config, apps: seq<App>)
    requires !BackendUrlMissing(cfg)
    requires !HasLoadingApps(FetchApps(cfg, Initial, ListOk(Some(apps))))
    ensures Step(cfg, Mounted, Load(ListOk(Some(apps)))).timers.live == {}
  {
  }

  /** Alpha's start marks it LOADING and leaves beta alone. */
  lemma ScenarioStartStates(cfg: Config, c: Catalog, alpha: App)
    requires !BackendUrlMissing(cfg)
    requires Key(alpha.name) == "alpha"
    requires c.states == map["alpha" := OFF, "beta" := ON]
    ensures Apply(cfg, c, StartClicked(alpha, Card.StartOk)).states == map["alpha" := LOADING, "beta" := ON]
  {
    StartClickOutcome(cfg, c, alpha, Card.StartOk);
  }

  /** Alpha's start succeeds: it turns LOADING and one interval starts. */
  lemma ScenarioStart(cfg: Config, s1: Session, alpha: App)
    requires !BackendUrlMissing(cfg) && TimerMatchesLoading(s1)
    requires alpha.name == "alpha"
    requires s1.catalog.states == map["alpha" := OFF, "beta" := ON]
    ensures var s2 := Step(cfg, s1, StartClicked(alpha, Card.StartOk));
      s2.catalog.states == map["alpha" := LOADING, "beta" := ON] && |s2.timers.live| == 1
  {
    ScenarioKeys();
    ScenarioStartStates(cfg, s1.catalog, alpha);
    StepKeepsTimerMatched(cfg, s1, StartClicked(alpha, Card.StartOk));
    var s2 := Step(cfg, s1, StartClicked(alpha, Card.StartOk));
    assert s2.catalog.states["alpha"] in s2.catalog.states.Values;
  }

  /** The poll for alpha reporting SUCCEEDED turns it ON and leaves beta alone. */
  lemma ScenarioPollStates(cfg: Config, c: Catalog)
    requires !BackendUrlMissing(cfg)
    requires c.states == map["alpha" := LOADING, "beta" := ON]
    ensures CheckAppStatus(cfg, c, "alpha", StatusOk(WithState("alpha", Some("SUCCEEDED")), None)).states
         == map["alpha" := ON, "beta" := ON]
  {
    ScenarioKeys();
    var reply := WithState("alpha", Some("SUCCEEDED"));
    assert DetermineAppState(reply) == ON;
  }

  /** The poll for alpha reports SUCCEEDED: it turns ON and the interval is cleared. */
  lemma ScenarioPoll(cfg: Config, s2: Session)
    requires !BackendUrlMissing(cfg) && TimerMatchesLoading(s2)
    requires s2.catalog.states == map["alpha" := LOADING, "beta" := ON]
    ensures var s3 := Step(cfg, s2, StatusReply("alpha", StatusOk(WithState("alpha", Some("SUCCEEDED")), None)));
      s3.catalog.states == map["alpha" := ON, "beta" := ON] && s3.timers.live == {}
  {
    var e := StatusReply("alpha", StatusOk(WithState("alpha", Some("SUCCEEDED")), None));
    ScenarioPollStates(cfg, s2.catalog);
    var s3 := Step(cfg, s2, e);
    ScenarioQuiet(s3.catalog, ON, ON);
    StepKeepsTimerMatched(cfg, s2, e);
  }

  /**
   * Load {alpha: OFF, beta: ON}; alpha's start succeeds, so alpha is LOADING
   * and one interval runs; the poll for alpha reports SUCCEEDED, so both are
   * ON and no interval is left.
   */
  lemma AlphaBetaScenario(url: string)
    requires url != ""
    ensures var cfg := Config(Current, Some(url));
      var alpha := WithState("alpha", None);
      var s1 := Step(cfg, Mounted, Load(ListOk(Some([alpha, WithState("beta", Some("SUCCEEDED"))]))));
      var s2 := Step(cfg, s1, StartClicked(alpha, Card.StartOk));
      var s3 := Step(cfg, s2, StatusReply("alpha", StatusOk(WithState("alpha", Some("SUCCEEDED")), None)));
      && s1.catalog.states == map["alpha" := OFF, "beta" := ON] && s1.timers.live == {}
      && s2.catalog.states == map["alpha" := LOADING, "beta" := ON] && |s2.timers.live| == 1
      && s3.catalog.states == map["alpha" := ON, "beta" := ON] && s3.timers.live == {}
  {
    var cfg := Config(Current, Some(url));
    var alpha := WithState("alpha", None);
    var beta := WithState("beta", Some("SUCCEEDED"));
    MountedMatches();
    ScenarioLoadStates(cfg, alpha, beta);
    ScenarioQuiet(FetchApps(cfg, Initial, ListOk(Some([alpha, beta]))), OFF, ON);
    QuietLoadStartsNoTimer(cfg, [alpha, beta]);
    var s1 := Step(cfg, Mounted, Load(ListOk(Some([alpha, beta]))));
    StepKeepsTimerMatched(cfg, Mounted, Load(ListOk(Some([alpha, beta]))));
    ScenarioStart(cfg, s1, alpha);
    var s2 := Step(cfg, s1, StartClicked(alpha, Card.StartOk));
    StepKeepsTimerMatched(cfg, s1, StartClicked(alpha, Card.StartOk));
    ScenarioPoll(cfg, s2);
  }
}

=== FILE: types.dfy ===
/**
 * The shapes the frontend and the backend exchange: the three-valued app
 * state (the same strings on both sides) and an app as the frontend sees it
 * in JSON, plus the deployment configuration that separates the two copies
 * of the frontend components.
 */
module Types {
  import opened Wrappers

  /** The lifecycle state shown for each app. */
  datatype AppState = OFF | LOADING | ON

  /** The string each state travels as: the frontend enum and the backend StrEnum agree. */
  function Wire(s: AppState): (w: string)
    ensures w in {"off", "loading", "on"}
    ensures (s == OFF <==> w == "off") && (s == LOADING <==> w == "loading") && (s == ON <==> w == "on")
  {
    match s
    case OFF => "off"
    case LOADING => "loading"
    case ON => "on"
  }

  /** Reading a state string back, as the frontend's `data.state as AppState` cast intends. */
  function ParseWire(w: string): (r: Option<AppState>)
    ensures r.Some? <==> w in {"off", "loading", "on"}
    ensures r.Some? ==> Wire(r.value) == w
  {
    if w == "off" then Some(OFF)
    else if w == "loading" then Some(LOADING)
    else if w == "on" then Some(ON)
    else None
  }

  /** Every state survives the trip through its wire string, so distinct states never share one. */
  lemma WireRoundTrip(s: AppState)
    ensures ParseWire(Wire(s)) == Some(s)
  {
  }

  /** `active_deployment.status`: the state string may be absent or null. */
  datatype DeploymentStatus = DeploymentStatus(state: Option<string>)

  /** `active_deployment`: the status object may be absent. */
  datatype Deployment = Deployment(status: Option<DeploymentStatus>)

  /** An app as received in JSON; `name` identifies it. */
  datatype App = App(
    name: string,
    description: Option<string>,
    url: Option<string>,
    activeDeployment: Option<Deployment>)

  /** JavaScript truthiness of an optional string: present and non-empty. */
  predicate Truthy(s: Option<string>) {
    s.Some? && s.value != ""
  }

  /** Which copy of the frontend components is meant: `frontend/` or the older `app/`. */
  datatype Copy = Current | Legacy

  /** The copy and the value of NEXT_PUBLIC_BACKEND_URL it runs with. */
  datatype Config = Config(copy: Copy, backendUrl: Option<string>)

  /** The message of the error the current copy throws when the backend URL is not configured. */
  const UrlNotSet := "NEXT_PUBLIC_BACKEND_URL is not set"

  /** Only the current copy reads the backend URL, and it refuses to work without one. */
  predicate BackendUrlMissing(cfg: Config) {
    cfg.copy == Current && !Truthy(cfg.backendUrl)
  }
}

=== FILE: wrappers.dfy ===
/** Failure-carrying datatypes used across the model. */
module Wrappers {

  /** A value that may be absent: JavaScript's `undefined`/`null`, Python's `None`. */
  datatype Option<+T> = None | Some(value: T) {

    /** The value, or `default` when absent. */
    function GetOr(default: T): T {
      match this
      case Some(v) => v
      case None => default
    }
  }

  /** A computation that either returns a value or fails with an error. */
  datatype Result<+T, +E> = Ok(value: T) | Err(error: E)
}
